=== FILE: README.md ===
# Redis Cluster client core: key routing and node-list validation

This project models two pure parts of the Ruby Redis Cluster client (`Redis::Cluster`):

1. **Key routing.** For each command the client extracts the string whose hash slot decides which
   node receives the command (`extract_key`). A key is routed by its *hash tag*: the text between
   the first `{` and the first `}` after it, provided that text is non-empty. Otherwise the whole
   key is used. Administrative commands (`info`, `multi`, `exec`, `slaveof`, `config`,
   `shutdown`) and missing, nil or empty keys extract the empty string. An administrative command,
   or a single-key command without a key, may go to any node. A multi-key command with an empty or
   nil first key is still routed by the slot of `''`. A multi-key command (`mget`, `del`, `mset`, `msetnx`) is routed only when all of
   its keys hash to the same slot. Otherwise it fails with the CROSSSLOT error. The slot is the
   CRC16 of the routing text modulo 16384, with the CRC16 as a parameter of the model.
2. **Node-list validation.** `Redis::Cluster.new` takes a list of node descriptors. Each one is
   either a `redis://host:port` URI string or a hash with a `host` field, keyed by Symbol or by
   String, and an optional `port` field. The list is normalized to one address per entry, or
   rejected with one specific error:
   - the list is not an Array;
   - an entry is neither a String nor a Hash;
   - the URI scheme is not `redis` (the model reports the scheme as `''` for nil, booleans,
     arrays and strings without a scheme);
   - a hash has no host.

   Each error carries its Ruby exception class (`ArgumentError`, or `KeyError` for the missing
   host) and its message.

Modules, one per file:

- `Results` (`results.dfy`): `Option` and `Result`.
- `Text` (`text.dfy`): first-occurrence search.
- `KeySlotConverter` (`key_slot_converter.dfy`): hash tags and slots.
- `KeyExtractor` (`key_extractor.dfy`): per-command key policy, `extract_key` and key lists.
- `Router` (`router.dfy`): the same-slot check and the routing target.
- `NodeConfigNormalizer` (`node_config.dfy`): the descriptor variant, URI parsing, hash lookup
  and normalization.

Behaviour the test file settles:

- Only the exception classes in the `assert_raise` calls are checked. Test-unit reads the second
  argument as a failure message. The messages are modelled anyway (`Message`), as the intended
  texts.
- Nil, `true`, `[]` and `''` as entries raise `ArgumentError`, as the test expects. The `''`
  scheme in the model's message is the intended text.
- An entry of another kind (`Object.new`) raises `ArgumentError`, as the test expects. "must
  includes String or Hash" is the model's intended message.

Redis servers report CROSSSLOT themselves. This model rejects a cross-slot command on the client,
before anything is sent. The test only sees a `CommandError` with the CROSSSLOT text, and both
produce that. The choice makes the rejection a pure function of the keys.

## Model

| member | source | states |
|---|---|---|
| KeySlotConverter.HashTag | test/cluster_test.rb:12-17 | The routing text is the non-empty text between the first `{` and the first `}` after it. If that text is empty, or there is no such brace pair, it is the whole key. It is empty exactly when the key is. |
| KeySlotConverter.ScanHashTag | test/cluster_test.rb:12-17 | The two-pointer scan (first `{`, then first `}` after it) computes the same routing text as `HashTag`. |
| KeySlotConverter.HashTagIdempotent | test/cluster_test.rb:57 | A routing text is its own routing text, so re-extracting an extracted key changes nothing. |
| KeySlotConverter.TaggedKey | test/cluster_test.rb:13-17 | A key built as prefix without `{`, then `{`, a non-empty tag without `}`, `}`, and any suffix is routed by exactly that tag. Later braces in the suffix are ignored. |
| KeySlotConverter.EmptyTagKey | test/cluster_test.rb:15 | An empty tag `{}` after a prefix without `{` makes the whole key the routing text. |
| KeySlotConverter.KeySlot | test/cluster_test.rb:55-59 | The slot of a key (`cluster keyslot`) is the remainder of the CRC16 of its routing text divided by 16384: the CRC is some whole multiple of 16384 plus the slot. |
| KeySlotConverter.SlotOfHash | test/cluster_test.rb:55-59 | A hash value reduces to a slot below 16384 that differs from it by a whole multiple of 16384. A value already below 16384 is its own slot. |
| KeySlotConverter.KeySlotOfHashTag | test/cluster_test.rb:55-59 | The slot of a key equals the slot of its routing text. |
| KeySlotConverter.SharedTagSameSlot | test/cluster_test.rb:57 | Any two keys with the same tag have the same slot, and that slot is the slot of the tag itself, for every CRC. |
| KeySlotConverter.KeyslotTestVector | test/cluster_test.rb:57 | `keyslot('boo{foo}woo')` equals the slot of `'foo'`, for every CRC. |
| KeyExtractor.LowerCharacters | test/cluster_test.rb:12-26 | Lower-casing a command name keeps the length, turns each ASCII upper-case letter into its lower-case partner, leaves every other character as it is, and leaves no ASCII upper-case letter. |
| KeyExtractor.PolicyIgnoresCase | test/cluster_test.rb:12-26 | A command's key policy is the same for its name and for its ASCII-lower-cased name. |
| KeyExtractor.PolicyOf | test/cluster_test.rb:12-26 | A command is keyless exactly when its lower-cased name is an administrative command (`info`, `multi`, `exec`, `slaveof`, `config`, `shutdown`). It takes all arguments as keys exactly for `mget`/`del`, and alternate arguments exactly for `mset`/`msetnx`. Every other command, such as `get`, takes its first argument. |
| KeyExtractor.ExtractKey | test/cluster_test.rb:12-26 | The extracted key is empty exactly for administrative commands and for missing, nil or empty first keys. Otherwise it is the routing text of the first key, never longer than that key. |
| KeyExtractor.EvenPositioned | test/cluster_test.rb:149-151 | Takes the arguments at positions 0, 2, 4 and so on, with their count rounded up to half the list. |
| KeyExtractor.KeysOf | test/cluster_test.rb:148-167 | The keys of a command by policy: none for administrative commands; the first argument (if non-empty) for single-key commands; every argument for `mget`/`del`; every even-positioned argument for `mset`/`msetnx`. |
| KeyExtractor.AdminCommandsAreKeyless | test/cluster_test.rb:21-26 | `info`, `multi`, `exec`, `slaveof`, `config` and `shutdown`, in any ASCII case, extract `''` and have no keys, whatever their arguments. |
| KeyExtractor.ExtractKeyMatchesKeysOf | test/cluster_test.rb:12-20 | For a single-key command, a key is extracted exactly when the key list is non-empty, and the extracted key is the routing text of that key. |
| KeyExtractor.ExtractKeyOfGet | test/cluster_test.rb:12-18 | `get` extracts the routing text of its argument. |
| KeyExtractor.ExtractKeyTagVectors | test/cluster_test.rb:12-17 | The six key vectors: `dogs:1`, `user1000` (twice), `foo{}{bar}`, `{bar` and `bar`. |
| KeyExtractor.ExtractKeyEmptyVectors | test/cluster_test.rb:18-26 | An empty, nil or missing key, and each administrative command, extracts `''`. |
| Router.ErrorMessage | test/cluster_test.rb:148 | The cross-slot error text starts with the `CROSSSLOT ` error code. |
| Router.AllInSlot | test/cluster_test.rb:148-167 | The key-by-key check holds exactly when every key lies in the given slot. |
| Router.CommonSlot | test/cluster_test.rb:148-167 | No keys give no slot. Keys that all share one slot give that slot. Otherwise there are two keys with different slots, and the error is CROSSSLOT. |
| Router.Route | test/cluster_test.rb:148-167 | A command goes to any node exactly when it has no keys. It goes to a slot owner only if every key lies in that slot. It is rejected exactly when two of its keys lie in different slots. |
| Router.SingleKeyRoute | test/cluster_test.rb:12-20 | A single-key command goes to the owner of the slot of its extracted key, or to any node when the extracted key is empty. |
| Router.MultiKeyRoute | test/cluster_test.rb:148-167 | A multi-key command goes to any node exactly when it has no arguments. Otherwise, unless it is rejected, it goes to the owner of the slot of its extracted key, which is `''` for an empty or nil first key. |
| Router.AdminRoute | test/cluster_test.rb:21-26 | Administrative commands, in any ASCII case, go to any node. |
| Router.SharedTagRoute | test/cluster_test.rb:159-167 | A command whose keys all carry one tag is never cross-slot: it goes to the owner of the tag's slot. |
| Router.ThreeKeysCrossSlot | test/cluster_test.rb:148-157 | Three keys are cross-slot exactly when their three slots are not all equal. |
| Router.TaggedMset | test/cluster_test.rb:159-163 | An `mset` of three `{tag}`-prefixed keys with values goes to the owner of the tag's slot. |
| Router.TaggedMget | test/cluster_test.rb:165-167 | An `mget` of three `{tag}`-prefixed keys goes to the owner of the tag's slot. |
| Router.TaggedMultiKeyVectors | test/cluster_test.rb:159-167 | The `{Presidents.of.USA}` `mset` and `mget` succeed and go to the slot of `Presidents.of.USA`, for every CRC. |
| Router.UntaggedMultiKeyVectors | test/cluster_test.rb:148-157 | The untagged `Presidents.of.USA:1..3` `mset` and `mget` fail with CROSSSLOT exactly when the three keys do not share a slot. |
| NodeConfigNormalizer.ClassOf | test/cluster_test.rb:221-277 | A missing host raises `KeyError`, and only a missing host does. Every other rejection raises `ArgumentError`. |
| NodeConfigNormalizer.Message | test/cluster_test.rb:221-253 | The invalid-scheme message is `invalid uri scheme '` followed by the scheme and a closing quote, so the scheme can be read back from it. |
| NodeConfigNormalizer.MessageIdentifiesError | test/cluster_test.rb:221-277 | Equal messages mean equal errors, including the scheme named in an invalid-scheme message. |
| NodeConfigNormalizer.SchemeRun | test/cluster_test.rb:218-232 | Returns the end of the maximal run of scheme characters starting at the given position. |
| NodeConfigNormalizer.Scheme | test/cluster_test.rb:218-232 | A URI's scheme is the letter-led run of scheme characters before the first `:`. It is `''` when there is none. A non-empty scheme is a proper prefix followed by `:`. |
| NodeConfigNormalizer.Authority | test/cluster_test.rb:121-126 | The authority is the longest prefix of the text after `//` that holds no `/`, `?` or `#`. It ends at the end of the text or just before one of those characters. |
| NodeConfigNormalizer.AuthorityAddress | test/cluster_test.rb:121-126 | The host is a text without `:`, and the port is a text or nil. `host` or `host:port` is exactly the end of the authority, It is the whole authority when there is no `@`, and the text after the first `@` otherwise, so user information is dropped. |
| NodeConfigNormalizer.RedisUriAddress | test/cluster_test.rb:121-126 | A `redis:` URI has a host exactly when `//` follows the scheme. The address is then read from the authority after `//`. Otherwise both host and port are nil. |
| NodeConfigNormalizer.Get | test/cluster_test.rb:123-124 | A hash lookup finds nothing exactly when no pair has the key. Otherwise it returns the value of a pair with that key after which no pair has the key, so the last pair wins. |
| NodeConfigNormalizer.Field | test/cluster_test.rb:123-124 | A field is found exactly when some pair has the Symbol or String key of that name. When a Symbol pair exists, the last Symbol pair gives the value. Only when there is none is the String key looked up. |
| NodeConfigNormalizer.SymbolHostPreferred | test/cluster_test.rb:123-124 | With both `:host` and a later `"host"` pair, the Symbol pair's host is taken. |
| NodeConfigNormalizer.SymbolHostPreferredLast | test/cluster_test.rb:123-124 | With `"host"` and then `:host`, the Symbol pair's host is taken as well. |
| NodeConfigNormalizer.NormalizeEntry | test/cluster_test.rb:218-272 | An Integer, Symbol or other object entry is rejected as "must includes String or Hash", and only such entries are. Nil, booleans and arrays report scheme `''`. A reported scheme is never `redis`. An entry never reports "must be Array". |
| NodeConfigNormalizer.EntryAcceptance | test/cluster_test.rb:120-131 | An entry is accepted exactly when it is a String with scheme `redis` or a Hash with a host under `:host` or `"host"`. A rejected String reports its own scheme. A Hash is rejected for a missing host exactly when it has none. An accepted Hash keeps its host and its port, or nil when there is no port. |
| NodeConfigNormalizer.NormalizeAll | test/cluster_test.rb:120-131 | A list is accepted exactly when every entry is. The addresses then match the entries one for one, in order. |
| NodeConfigNormalizer.FirstRejected | test/cluster_test.rb:218-272 | A rejected list reports the error of one of its entries, and every entry before that one is accepted. |
| NodeConfigNormalizer.NormalizeNodeConfigs | test/cluster_test.rb:274-280 | A non-Array is rejected as "must be Array", and only a non-Array is. An Array is accepted exactly when all its entries are, with each address the one its entry normalizes to. Otherwise it reports the error of its first rejected entry. |
| NodeConfigNormalizer.RedisUriParts | test/cluster_test.rb:121-126 | `redis://host:port` over components free of `:/?#@` has scheme `redis` and names exactly that host and port. |
| NodeConfigNormalizer.RedisUriRoundTrip | test/cluster_test.rb:121-126 | Writing an address as a `redis://host:port` URI and normalizing it gives the same address back. |
| NodeConfigNormalizer.SymbolHostAccepted | test/cluster_test.rb:123 | `{host: h, port: p}` is accepted with host `h` and port `p`. |
| NodeConfigNormalizer.StringHostAccepted | test/cluster_test.rb:124 | `{'host' => h, port: p}` is accepted with host `h` and port `p`. |
| NodeConfigNormalizer.LocalNodeUriVector | test/cluster_test.rb:121-126 | `redis://127.0.0.1:7000`, `7001`, `7004` and `7005` are each accepted with host `127.0.0.1` and that port. |
| NodeConfigNormalizer.AllAccepted | test/cluster_test.rb:120-131 | A list whose every entry is accepted normalizes to exactly the list of their addresses, in order. |
| NodeConfigNormalizer.SingleEntryConfig | test/cluster_test.rb:218-272 | A one-entry list is accepted or rejected exactly as its entry is, with the same error. |
| NodeConfigNormalizer.HttpUriRejected | test/cluster_test.rb:218-224 | `['http://127.0.0.1:80']` is rejected with scheme `http`, as an `ArgumentError`. |
| NodeConfigNormalizer.UpperCaseSchemeRejected | test/cluster_test.rb:218-224 | The scheme is compared case-sensitively: `REDIS://h:1` is rejected with scheme `REDIS`. This differs from Ruby's URI parser, as "## Left out" records. |
| NodeConfigNormalizer.RejectedConfigVectors | test/cluster_test.rb:226-280 | `['']`, `[true]`, `[nil]` and `[[]]` report scheme `''` (`ArgumentError`). `[{}]` reports the missing host (`KeyError`). `[Object.new]` reports "must includes String or Hash". `:not_array` reports "must be Array" (both `ArgumentError`). The test checks only the exception classes; the messages are the model's. |
| Text.Find | test/cluster_test.rb:13-17 | Returns the first position at or after the start whose character is in the set, or nothing when no later character is. |

## Left out

- The CRC16 inside `KeySlotConverter.convert` is not part of this model. The slot function takes
  any `string -> bv16` as a parameter, so every routing fact holds for the real CRC as well. For
  the same reason the untagged `mset`/`mget` of lines 148-157 are proved to fail exactly when their
  three slots differ (`UntaggedMultiKeyVectors`). That they differ under the real CRC16, so that
  both commands fail unconditionally as the test expects, is not proved.
- `cluster(:slots)`, `cluster(:nodes)`, `cluster(:info)` and `cluster(:slaves)`, `asking`, `ping`
  and the `set`/`get` round trip are left out. They need a live cluster and return server-produced
  replies (network I/O).
- Seed connectivity and `CannotConnectError` are left out: at least one reachable seed, unreachable
  ports, and the `redis://…/1/namespace` URL that fails as a connection error. This is network
  behaviour. The model accepts that URL, taking its host and port from the authority.
- `respond_to?` and `NoMethodError` for unknown commands are left out. They are Ruby reflection
  with no logic to verify.
- MOVED/ASK redirection, the single retry and topology caching are left out. They depend on server
  replies and on mutable shared state.
- Port text is passed through uninterpreted: no conversion to an integer and no range check. User
  information before `@` is dropped, and bracketed IPv6 hosts are not handled. The URI parser of
  the Ruby standard library is not part of this model.
- Router.Route: an empty or nil first key of a multi-key command (`mget('')`, `del(nil)`) is
  hashed as the key `''` and sent to the owner of that slot, not to any node (`MultiKeyRoute`).
  The test exercises the empty key only with `get`.
- Command names are matched after ASCII lower-casing (`PolicyIgnoresCase`). The test uses only
  lower-case names, so this is a modelling choice, and non-ASCII case folding is not modelled.
- NodeConfigNormalizer.NormalizeEntry: Integer and Symbol entries are rejected as "must includes
  String or Hash", like `Object.new`. The test shows only `Object.new` as an entry of that kind
  (`:not_array` at line 275 is the whole list, not an entry), so this is a modelling choice.
  Likewise, `false` and non-empty arrays are rejected with the empty scheme `''`, like `true` and
  `[]`. The test shows only `true`, nil, `[]` and `''`, and only their exception class.
- NodeConfigNormalizer.Field: the Symbol key `:host` is preferred over the String key `"host"`,
  wherever the pairs stand (`SymbolHostPreferred`, `SymbolHostPreferredLast`). The test's hashes hold
  only one of the two keys each, so the order is a modelling choice. Among pairs with the very same
  key, the last one wins, as in a Ruby hash literal.
- NodeConfigNormalizer.Scheme: the scheme is compared case-sensitively. `REDIS://h:1` is rejected
  with scheme `REDIS` (`UpperCaseSchemeRejected`), whereas Ruby's URI parser lower-cases schemes.
- The literal six-entry list of `test_client_accepts_valid_node_configs` is not stated as one
  lemma. Its entries are covered one by one (`LocalNodeUriVector`, `SymbolHostAccepted`,
  `StringHostAccepted`), and the list level by `AllAccepted`. Evaluating the whole literal list in
  one proof is too costly for the verifier.
- NodeConfigNormalizer.NormalizeEntry: its contract states only the rejections that do not depend
  on parsing. The acceptance and parse-dependent clauses are stated about it in `EntryAcceptance`
  instead, which keeps the list-level proofs small.

=== FILE: key_extractor.dfy ===
/**
  Per-command key extraction: which arguments of a command are keys, and
  which string decides the routing of a command (its `extract_key`).
*/
module KeyExtractor {
  import opened Results
  import opened KeySlotConverter

  /** How a command's arguments carry its keys. */
  datatype KeyPolicy =
    | NoKeys         // administrative commands: never routed by a key
    | FirstArg       // single-key commands: the first argument is the key
    | AllArgs        // multi-key commands (bulk get / delete): every argument is a key
    | AlternateArgs  // key/value commands (bulk set): arguments 0, 2, 4, ... are keys

  /** Commands that never extract a key, whatever their arguments. */
  const AdminCommands: set<string> := {"info", "multi", "exec", "slaveof", "config", "shutdown"}

  /** Commands whose every argument is a key. */
  const MultiKeyCommands: set<string> := {"mget", "del"}

  /** Commands whose arguments alternate key, value, key, value, ... */
  const KeyValueCommands: set<string> := {"mset", "msetnx"}

  function LowerChar(c: char): char {
    if 'A' <= c <= 'Z' then (c as int + 32) as char else c
  }

  /** ASCII lower-casing of a command name (Ruby's `downcase` on ASCII text); see `LowerCharacters`. */
  function Lower(s: string): string {
    seq(|s|, i requires 0 <= i < |s| => LowerChar(s[i]))
  }

  /**
    What lower-casing does to each character: upper-case letters move to
    their lower-case partners, every other character stays, and no
    upper-case letter is left.
  */
  lemma LowerCharacters(s: string)
    ensures |Lower(s)| == |s|
    ensures forall i :: 0 <= i < |s| ==> !('A' <= Lower(s)[i] <= 'Z')
    ensures forall i :: 0 <= i < |s| && 'A' <= s[i] <= 'Z' ==> Lower(s)[i] as int == s[i] as int + 32
    ensures forall i :: 0 <= i < |s| && !('A' <= s[i] <= 'Z') ==> Lower(s)[i] == s[i]
  {
  }

  /**
    The key policy of a command, looked up by its lower-cased name; each
    name belongs to at most one table, and every other command is a
    single-key command.
  */
  function PolicyOf(command: string): (p: KeyPolicy)
    ensures p == NoKeys <==> Lower(command) in AdminCommands
    ensures p == AllArgs <==> Lower(command) in MultiKeyCommands
    ensures p == AlternateArgs <==> Lower(command) in KeyValueCommands
    ensures p == FirstArg <==>
              Lower(command) !in AdminCommands + MultiKeyCommands + KeyValueCommands
  {
    var name := Lower(command);
    if name in AdminCommands then NoKeys
    else if name in MultiKeyCommands then AllArgs
    else if name in KeyValueCommands then AlternateArgs
    else FirstArg
  }

  /** Lower-casing twice is lower-casing once. */
  lemma LowerIdempotent(s: string)
    ensures Lower(Lower(s)) == Lower(s)
  {
    forall i | 0 <= i < |s| ensures Lower(Lower(s))[i] == Lower(s)[i] {
      assert Lower(s)[i] == LowerChar(s[i]);
    }
  }

  /** A command's policy does not depend on the case of its name. */
  lemma PolicyIgnoresCase(command: string)
    ensures PolicyOf(Lower(command)) == PolicyOf(command)
  {
    LowerIdempotent(command);
  }

  /** Helper: the text of an argument as Ruby's `to_s` gives it; `nil` becomes the empty string. */
  function ArgText(arg: Option<string>): string {
    arg.GetOr("")
  }

  /** Helper: the text of the first argument; the empty string when there is no argument. */
  function FirstKey(args: seq<Option<string>>): string {
    if args == [] then "" else ArgText(args[0])
  }

  /**
    The string whose slot routes `command`: empty for administrative commands
    and for a missing, nil or empty key, and otherwise the hash tag of the
    first argument.
  */
  function ExtractKey(command: string, args: seq<Option<string>>): (r: string)
    ensures r == [] <==> PolicyOf(command) == NoKeys || FirstKey(args) == []
    ensures r != [] ==> r == HashTag(FirstKey(args))
    ensures |r| <= |FirstKey(args)|
  {
    if PolicyOf(command) == NoKeys then "" else HashTag(FirstKey(args))
  }

  /** The texts of the arguments at even positions 0, 2, 4, ... */
  function EvenPositioned(args: seq<Option<string>>): (keys: seq<string>)
    ensures |keys| == (|args| + 1) / 2
    ensures forall i :: 0 <= i < |keys| ==> keys[i] == ArgText(args[2 * i])
    decreases |args|
  {
    if args == [] then []
    else if |args| == 1 then [ArgText(args[0])]
    else [ArgText(args[0])] + EvenPositioned(args[2..])
  }

  /** The keys a command operates on, in argument order. */
  function KeysOf(command: string, args: seq<Option<string>>): (keys: seq<string>)
    ensures PolicyOf(command) == NoKeys ==> keys == []
    ensures PolicyOf(command) == FirstArg ==>
              keys == (if FirstKey(args) == [] then [] else [FirstKey(args)])
    ensures PolicyOf(command) == AllArgs ==>
              |keys| == |args| && forall i :: 0 <= i < |args| ==> keys[i] == ArgText(args[i])
    ensures PolicyOf(command) == AlternateArgs ==>
              |keys| == (|args| + 1) / 2 &&
              forall i :: 0 <= i < |keys| ==> keys[i] == ArgText(args[2 * i])
  {
    match PolicyOf(command)
    case NoKeys => []
    case FirstArg => if FirstKey(args) == [] then [] else [FirstKey(args)]
    case AllArgs => seq(|args|, i requires 0 <= i < |args| => ArgText(args[i]))
    case AlternateArgs => EvenPositioned(args)
  }

  /** Administrative commands extract the empty string and no keys, whatever their arguments. */
  lemma AdminCommandsAreKeyless(command: string, args: seq<Option<string>>)
    requires Lower(command) in AdminCommands
    ensures ExtractKey(command, args) == ""
    ensures KeysOf(command, args) == []
  {
  }

  /**
    For a single-key command, extraction and the key list agree: a command
    has a key exactly when it extracts a non-empty string, and the extracted
    string is that key's hash tag.
  */
  lemma ExtractKeyMatchesKeysOf(command: string, args: seq<Option<string>>)
    requires PolicyOf(command) == FirstArg
    ensures ExtractKey(command, args) == [] <==> KeysOf(command, args) == []
    ensures KeysOf(command, args) != [] ==> ExtractKey(command, args) == HashTag(KeysOf(command, args)[0])
  {
  }

  /** `get` is a single-key command: it extracts the hash tag of its argument. */
  lemma ExtractKeyOfGet(key: string)
    ensures ExtractKey("get", [Some(key)]) == HashTag(key)
  {
    assert Lower("get") == "get";
  }

  /** A key without braces is its own hash tag. */
  lemma PlainKeyVector()
    ensures HashTag("dogs:1") == "dogs:1"
  {
    assert '{' !in "dogs:1";
  }

  /** A leading tag is the hash tag of `'{user1000}.following'`. */
  lemma FollowingTagVector()
    ensures HashTag("{user1000}.following") == "user1000"
  {
    LeadingTagKey("user1000", ".following");
    assert "{" + "user1000" + "}" == "{user1000}";
    assert "{user1000}" + ".following" == "{user1000}.following";
  }

  /** A leading tag is the hash tag of `'{user1000}.followers'`. */
  lemma FollowersTagVector()
    ensures HashTag("{user1000}.followers") == "user1000"
  {
    LeadingTagKey("user1000", ".followers");
    assert "{" + "user1000" + "}" == "{user1000}";
    assert "{user1000}" + ".followers" == "{user1000}.followers";
  }

  /** The empty tag of `'foo{}{bar}'` falls back to the whole key. */
  lemma EmptyTagVector()
    ensures HashTag("foo{}{bar}") == "foo{}{bar}"
  {
    EmptyTagKey("foo", "{bar}");
    assert "foo{}{bar}" == "foo" + "{}" + "{bar}";
  }

  /** The tag of `'foo{{bar}}zap'` runs from after the first `{` to the first `}`. */
  lemma NestedTagVector()
    ensures HashTag("foo{{bar}}zap") == "{bar"
  {
    TaggedKey("foo", "{bar", "}zap");
    assert "foo" + "{" + "{bar" == "foo{{bar";
    assert "foo{{bar" + "}" + "}zap" == "foo{{bar}}zap";
  }

  /** The first pair of `'foo{bar}{zap}'` wins. */
  lemma FirstPairVector()
    ensures HashTag("foo{bar}{zap}") == "bar"
  {
    TaggedKey("foo", "bar", "{zap}");
    assert "foo" + "{" + "bar" == "foo{bar";
    assert "foo{bar" + "}" == "foo{bar}";
    assert "foo{bar}" + "{zap}" == "foo{bar}{zap}";
  }

  /** `test_extract_key`: plain keys, tags, empty tags and nested braces. */
  lemma ExtractKeyTagVectors()
    ensures ExtractKey("get", [Some("dogs:1")]) == "dogs:1"
    ensures ExtractKey("get", [Some("{user1000}.following")]) == "user1000"
    ensures ExtractKey("get", [Some("{user1000}.followers")]) == "user1000"
    ensures ExtractKey("get", [Some("foo{}{bar}")]) == "foo{}{bar}"
    ensures ExtractKey("get", [Some("foo{{bar}}zap")]) == "{bar"
    ensures ExtractKey("get", [Some("foo{bar}{zap}")]) == "bar"
  {
    PlainKeyVector();
    FollowingTagVector();
    FollowersTagVector();
    EmptyTagVector();
    NestedTagVector();
    FirstPairVector();
    ExtractKeyOfGet("dogs:1");
    ExtractKeyOfGet("{user1000}.following");
    ExtractKeyOfGet("{user1000}.followers");
    ExtractKeyOfGet("foo{}{bar}");
    ExtractKeyOfGet("foo{{bar}}zap");
    ExtractKeyOfGet("foo{bar}{zap}");
  }

  /** `test_extract_key`: empty, nil and missing keys, and administrative commands, extract `''`. */
  lemma ExtractKeyEmptyVectors()
    ensures ExtractKey("get", [Some("")]) == ""
    ensures ExtractKey("get", [None]) == ""
    ensures ExtractKey("get", []) == ""
    ensures ExtractKey("info", []) == ""
    ensures ExtractKey("multi", []) == ""
    ensures ExtractKey("exec", []) == ""
    ensures ExtractKey("slaveof", []) == ""
    ensures ExtractKey("config", []) == ""
    ensures ExtractKey("shutdown", []) == ""
  {
    assert Lower("info") == "info";
    AdminCommandsAreKeyless("info", []);
    assert Lower("multi") == "multi";
    AdminCommandsAreKeyless("multi", []);
    assert Lower("exec") == "exec";
    AdminCommandsAreKeyless("exec", []);
    assert Lower("slaveof") == "slaveof";
    AdminCommandsAreKeyless("slaveof", []);
    assert Lower("config") == "config";
    AdminCommandsAreKeyless("config", []);
    assert Lower("shutdown") == "shutdown";
    AdminCommandsAreKeyless("shutdown", []);
  }
}

=== FILE: key_slot_converter.dfy ===
/**
  Key-to-slot hashing for a Redis Cluster client.

  A key is routed by its hash tag: the text strictly between the first `{`
  of the key and the first `}` after it, when that text is non-empty; any
  other key is routed by the whole key. The slot is the 16-bit CRC of the
  routing text modulo 16384. The CRC itself is a parameter of the model
  (`crc16`), so every fact proved here holds for any 16-bit hash.
*/
module KeySlotConverter {
  import opened Results
  import Text

  /** Number of hash slots of a cluster. */
  const SlotCount: nat := 16384

  type Slot = s: nat | s < 16384

  /**
    `key[open]` is the first `{` of the key and `key[close]` is the first `}`
    that follows it. At most one pair (open, close) satisfies this.
  */
  ghost predicate TagBraces(key: string, open: int, close: int) {
    && 0 <= open < close < |key|
    && key[open] == '{'
    && key[close] == '}'
    && (forall j :: 0 <= j < open ==> key[j] != '{')
    && (forall j :: open < j < close ==> key[j] != '}')
  }

  /**
    The text whose slot decides where `key` is routed: the non-empty text
    between the braces when there are braces, and the whole key otherwise.
  */
  function HashTag(key: string): (r: string)
    ensures forall open, close :: TagBraces(key, open, close) ==>
              r == (if open + 1 < close then key[open + 1..close] else key)
    ensures (forall open, close :: !TagBraces(key, open, close)) ==> r == key
    ensures r == [] <==> key == []
  {
    match Text.Find(key, {'{'}, 0)
    case None => key
    case Some(open) =>
      match Text.Find(key, {'}'}, open + 1)
      case None => key
      case Some(close) =>
        assert TagBraces(key, open, close);
        if open + 1 < close then key[open + 1..close] else key
  }

  /** The same hash tag, computed by one forward scan for `{` and then for `}`. */
  method ScanHashTag(key: string) returns (r: string)
    ensures r == HashTag(key)
  {
    var open := 0;
    while open < |key| && key[open] != '{'
      invariant open <= |key|
      invariant forall j :: 0 <= j < open ==> key[j] != '{'
    {
      open := open + 1;
    }
    if open == |key| {
      return key;
    }
    var close := open + 1;
    while close < |key| && key[close] != '}'
      invariant open < close <= |key|
      invariant forall j :: open < j < close ==> key[j] != '}'
    {
      close := close + 1;
    }
    if close == |key| || close == open + 1 {
      return key;
    }
    assert TagBraces(key, open, close);
    return key[open + 1..close];
  }

  /** A hash value reduced to a slot: the remainder of its division by the slot count. */
  function SlotOfHash(h: nat): (r: Slot)
    ensures exists q: nat :: h == q * SlotCount + r
    ensures h < SlotCount ==> r == h
  {
    assert h == (h / SlotCount) * SlotCount + h % SlotCount;
    h % SlotCount
  }

  /**
    The slot of a key (`cluster keyslot`): the remainder of the CRC of its
    hash tag divided by the slot count.
  */
  function KeySlot(crc16: string -> bv16, key: string): (r: Slot)
    ensures exists q: nat :: crc16(HashTag(key)) as nat == q * SlotCount + r
  {
    SlotOfHash(crc16(HashTag(key)) as nat)
  }

  /** A hash tag is its own hash tag: it holds no `}` unless it is the whole key. */
  lemma HashTagIdempotent(key: string)
    ensures HashTag(HashTag(key)) == HashTag(key)
  {
    var r := HashTag(key);
    if r != key {
      var open, close :| TagBraces(key, open, close) && open + 1 < close;
      assert r == key[open + 1..close];
      forall j | 0 <= j < |r|
        ensures r[j] != '}'
      {
        assert r[j] == key[open + 1 + j];
      }
    }
  }

  /**
    A key laid out as prefix, `{`, tag, `}`, suffix, with no `{` in the prefix,
    no `}` in the tag and a non-empty tag, is routed by its tag.
  */
  lemma TaggedKey(prefix: string, tag: string, suffix: string)
    requires '{' !in prefix && '}' !in tag && tag != []
    ensures HashTag(prefix + "{" + tag + "}" + suffix) == tag
  {
    var key := prefix + "{" + tag + "}" + suffix;
    var open, close := |prefix|, |prefix| + 1 + |tag|;
    assert key[open] == '{' && key[close] == '}';
    forall j | 0 <= j < open ensures key[j] != '{' {
      assert key[j] == prefix[j];
    }
    forall j | open < j < close ensures key[j] != '}' {
      assert key[j] == tag[j - open - 1];
    }
    assert TagBraces(key, open, close);
    assert key[open + 1..close] == tag;
  }

  /** A key that starts with a non-empty, `}`-free tag in braces is routed by that tag. */
  lemma LeadingTagKey(tag: string, suffix: string)
    requires '}' !in tag && tag != []
    ensures HashTag("{" + tag + "}" + suffix) == tag
  {
    TaggedKey([], tag, suffix);
    assert [] + "{" + tag + "}" + suffix == "{" + tag + "}" + suffix;
  }

  /** An empty tag `{}` after a brace-free prefix falls back to the whole key. */
  lemma EmptyTagKey(prefix: string, suffix: string)
    requires '{' !in prefix
    ensures HashTag(prefix + "{}" + suffix) == prefix + "{}" + suffix
  {
    var key := prefix + "{}" + suffix;
    forall j | 0 <= j < |prefix| ensures key[j] != '{' {
      assert key[j] == prefix[j];
    }
    assert TagBraces(key, |prefix|, |prefix| + 1);
  }

  /** The slot of a key is the slot of its hash tag. */
  lemma KeySlotOfHashTag(crc16: string -> bv16, key: string)
    ensures KeySlot(crc16, key) == KeySlot(crc16, HashTag(key))
  {
    HashTagIdempotent(key);
  }

  /** Keys that carry the same hash tag share a slot, which is the slot of the tag itself. */
  lemma SharedTagSameSlot(crc16: string -> bv16, prefix1: string, suffix1: string,
                          prefix2: string, suffix2: string, tag: string)
    requires '{' !in prefix1 && '{' !in prefix2 && '}' !in tag && tag != []
    ensures KeySlot(crc16, prefix1 + "{" + tag + "}" + suffix1) == KeySlot(crc16, tag)
    ensures KeySlot(crc16, prefix1 + "{" + tag + "}" + suffix1)
         == KeySlot(crc16, prefix2 + "{" + tag + "}" + suffix2)
  {
    TaggedKey(prefix1, tag, suffix1);
    TaggedKey(prefix2, tag, suffix2);
    KeySlotOfHashTag(crc16, tag);
    HashTagIdempotent(tag);
  }

  /** `cluster keyslot 'boo{foo}woo'` equals the slot of `'foo'`, whatever the CRC. */
  lemma KeyslotTestVector(crc16: string -> bv16)
    ensures KeySlot(crc16, "boo{foo}woo") == KeySlot(crc16, "foo")
  {
    TaggedKey("boo", "foo", "woo");
    assert "boo{foo}woo" == "boo" + "{" + "foo" + "}" + "woo";
    KeySlotOfHashTag(crc16, "boo{foo}woo");
  }
}

=== FILE: node_config.dfy ===
/**
  Validation of the node list a cluster client is built from.

  Each node is described either by a URI string `redis://host:port` or by a
  hash with a `host` field (and optionally a `port` field), keyed by Symbol
  or by String. The list is normalized to one address per entry, or the
  first invalid entry makes the whole construction fail with one specific
  error.
*/
module NodeConfigNormalizer {
  import opened Results
  import Text

  /** The Ruby objects a node list can be built from. */
  datatype Value =
    | Nil
    | Bool(b: bool)
    | Int(i: int)
    | Str(s: string)
    | Sym(name: string)
    | Array(items: seq<Value>)
    | Hash(pairs: seq<(Value, Value)>)  // in insertion order
    | Object                            // any other object, such as `Object.new`

  /** A node's address as the connection layer receives it; the port is passed through uninterpreted. */
  datatype NodeAddress = NodeAddress(host: Value, port: Value)

  /** Why a node list is rejected. */
  datatype ConfigError =
    | NotArray                        // the list itself is not an Array
    | NotStringOrHash                 // an entry is an object of another kind
    | InvalidScheme(scheme: string)   // an entry's URI scheme is not `redis`
    | MissingHost                     // a hash entry has no `host` field

  /** The Ruby exception class raised for each error. */
  datatype ErrorClass = ArgumentError | KeyError

  const RedisScheme: string := "redis"

  /** The exception class of a rejection: a missing host raises `KeyError`, every other rejection `ArgumentError`. */
  function ClassOf(e: ConfigError): (c: ErrorClass)
    ensures c == KeyError <==> e.MissingHost?
    ensures c == ArgumentError <==> !e.MissingHost?
  {
    match e
    case MissingHost => KeyError
    case NotArray => ArgumentError
    case NotStringOrHash => ArgumentError
    case InvalidScheme(_) => ArgumentError
  }

  /** The exception message of a rejection; an invalid scheme is named in quotes. */
  function Message(e: ConfigError): (m: string)
    ensures e.InvalidScheme? ==>
              |m| == 21 + |e.scheme| && m[..20] == "invalid uri scheme '" &&
              m[20..|m| - 1] == e.scheme && m[|m| - 1] == '\''
  {
    match e
    case NotArray => "Redis Cluster node config must be Array"
    case NotStringOrHash => "Redis Cluster node config must includes String or Hash"
    case InvalidScheme(scheme) => "invalid uri scheme '" + scheme + "'"
    case MissingHost => "key not found: :host"
  }

  /** Helper for `MessageIdentifiesError`: the last character and the length tell the four messages apart. */
  lemma MessageMarks(e: ConfigError)
    ensures |Message(e)| > 0
    ensures Message(e)[|Message(e)| - 1] == '\'' <==> e.InvalidScheme?
    ensures e.NotArray? ==> |Message(e)| == 39
    ensures e.NotStringOrHash? ==> |Message(e)| == 54
    ensures e.MissingHost? ==> |Message(e)| == 20
    ensures e.InvalidScheme? ==> |Message(e)| == 21 + |e.scheme|
  {
  }

  /** Distinct errors carry distinct messages, so the message identifies the error. */
  lemma MessageIdentifiesError(e1: ConfigError, e2: ConfigError)
    requires Message(e1) == Message(e2)
    ensures e1 == e2
  {
    MessageMarks(e1);
    MessageMarks(e2);
    if e1.InvalidScheme? && e2.InvalidScheme? {
      var p := "invalid uri scheme '";
      var m := Message(e1);
      assert m == p + e1.scheme + "'";
      assert e1.scheme == m[|p|..|m| - 1];
      assert m == p + e2.scheme + "'";
      assert e2.scheme == m[|p|..|m| - 1];
    }
  }

  predicate IsAlpha(c: char) {
    'a' <= c <= 'z' || 'A' <= c <= 'Z'
  }

  predicate IsSchemeChar(c: char) {
    IsAlpha(c) || '0' <= c <= '9' || c == '+' || c == '-' || c == '.'
  }

  /**
    `uri[..n]` is the URI's scheme: a letter followed by letters, digits,
    `+`, `-` or `.`, and then a colon (section 3.1 of RFC 3986).
  */
  ghost predicate SchemeEnd(uri: string, n: int) {
    && 0 < n < |uri|
    && uri[n] == ':'
    && IsAlpha(uri[0])
    && (forall i :: 0 < i < n ==> IsSchemeChar(uri[i]))
  }

  /** The end of the run of scheme characters that starts at `from`. */
  function SchemeRun(uri: string, from: nat): (r: nat)
    requires from <= |uri|
    ensures from <= r <= |uri|
    ensures forall i :: from <= i < r ==> IsSchemeChar(uri[i])
    ensures r < |uri| ==> !IsSchemeChar(uri[r])
    decreases |uri| - from
  {
    if from == |uri| || !IsSchemeChar(uri[from]) then from else SchemeRun(uri, from + 1)
  }

  /** The scheme of a URI string, or the empty string when it has none (Ruby's `nil`). */
  function Scheme(uri: string): (r: string)
    ensures forall n :: SchemeEnd(uri, n) ==> r == uri[..n]
    ensures (forall n :: !SchemeEnd(uri, n)) ==> r == ""
    ensures r != [] ==> |r| < |uri| && uri[..|r|] == r && uri[|r|] == ':'
  {
    if uri == [] || !IsAlpha(uri[0]) then ""
    else
      var n := SchemeRun(uri, 1);
      if n < |uri| && uri[n] == ':' then
        assert SchemeEnd(uri, n);
        uri[..n]
      else ""
  }

  /** A URI whose scheme is `redis` starts with `redis:`. */
  lemma RedisSchemePrefix(uri: string)
    requires Scheme(uri) == RedisScheme
    ensures |uri| >= 6 && uri[..6] == "redis:"
  {
    assert uri[..5] == RedisScheme && uri[5] == ':';
    assert uri[..6] == uri[..5] + [uri[5]];
  }

  /**
    The address named by a `redis:` URI: the authority follows `//`; a URI
    without `//` names no host.
  */
  function RedisUriAddress(uri: string): (r: NodeAddress)
    requires Scheme(uri) == RedisScheme
    ensures |uri| >= 6 && uri[..6] == "redis:"
    ensures r.host.Nil? <==> !(|uri| >= 8 && uri[6] == '/' && uri[7] == '/')
    ensures r.host.Nil? ==> r.port.Nil?
    ensures r.host.Str? ==> r == AuthorityAddress(Authority(uri[8..]))
  {
    RedisSchemePrefix(uri);
    if |uri| >= 8 && uri[6] == '/' && uri[7] == '/' then AuthorityAddress(Authority(uri[8..]))
    else NodeAddress(Nil, Nil)
  }

  /** The authority part of the text after `//`: everything up to the first `/`, `?` or `#`. */
  function Authority(s: string): (r: string)
    ensures r <= s
    ensures forall i :: 0 <= i < |r| ==> r[i] !in {'/', '?', '#'}
    ensures |r| < |s| ==> s[|r|] in {'/', '?', '#'}
  {
    match Text.Find(s, {'/', '?', '#'}, 0)
    case None => s
    case Some(e) => s[..e]
  }

  /**
    The host and port of an authority: user information up to `@` is
    dropped, the host runs to the first `:` and the port text follows it.
  */
  function AuthorityAddress(authority: string): (r: NodeAddress)
    ensures r.host.Str? && ':' !in r.host.s
    ensures r.port.Nil? || r.port.Str?
    ensures |HostPortText(r)| <= |authority| &&
            authority[|authority| - |HostPortText(r)|..] == HostPortText(r)
    ensures '@' !in authority ==> authority == HostPortText(r)
    ensures forall at :: 0 <= at < |authority| && authority[at] == '@' && '@' !in authority[..at] ==>
              authority[at + 1..] == HostPortText(r)
  {
    var hostPort := match Text.Find(authority, {'@'}, 0)
      case None => authority
      case Some(at) => authority[at + 1..];
    match Text.Find(hostPort, {':'}, 0)
    case None => NodeAddress(Str(hostPort), Nil)
    case Some(colon) => NodeAddress(Str(hostPort[..colon]), Str(hostPort[colon + 1..]))
  }

  /** The `host` or `host:port` text of an address whose host is a text. */
  function HostPortText(a: NodeAddress): string
    requires a.host.Str?
  {
    if a.port.Str? then a.host.s + ":" + a.port.s else a.host.s
  }

  /** The value stored under `key` in a hash given by its pairs; a later pair overrides an earlier one. */
  function Get(pairs: seq<(Value, Value)>, key: Value): (r: Option<Value>)
    ensures r.None? <==> forall i :: 0 <= i < |pairs| ==> pairs[i].0 != key
    ensures r.Some? ==>
              exists i :: 0 <= i < |pairs| && pairs[i] == (key, r.value) &&
                          forall j :: i < j < |pairs| ==> pairs[j].0 != key
    decreases |pairs|
  {
    if pairs == [] then None
    else if pairs[|pairs| - 1].0 == key then Some(pairs[|pairs| - 1].1)
    else Get(pairs[..|pairs| - 1], key)
  }

  /** A hash's field `name`, looked up under the Symbol key first and then under the String key. */
  function Field(pairs: seq<(Value, Value)>, name: string): (r: Option<Value>)
    ensures r.Some? <==> exists i :: 0 <= i < |pairs| && pairs[i].0 in {Sym(name), Str(name)}
    ensures (exists i :: 0 <= i < |pairs| && pairs[i].0 == Sym(name)) ==> r == Get(pairs, Sym(name))
    ensures (forall i :: 0 <= i < |pairs| ==> pairs[i].0 != Sym(name)) ==> r == Get(pairs, Str(name))
  {
    match Get(pairs, Sym(name))
    case Some(v) => Some(v)
    case None => Get(pairs, Str(name))
  }

  /** One node descriptor, normalized to an address or rejected. */
  function NormalizeEntry(entry: Value): (r: Result<NodeAddress, ConfigError>)
    ensures r == Err(NotStringOrHash) <==> entry.Int? || entry.Sym? || entry.Object?
    ensures (entry.Nil? || entry.Bool? || entry.Array?) ==> r == Err(InvalidScheme(""))
    ensures r.Err? && r.error.InvalidScheme? ==> r.error.scheme != RedisScheme
    ensures r.Err? ==> r.error != NotArray
  {
    match entry
    case Str(uri) =>
      var scheme := Scheme(uri);
      if scheme == RedisScheme then Ok(RedisUriAddress(uri)) else Err(InvalidScheme(scheme))
    case Hash(pairs) =>
      (match Field(pairs, "host")
       case None => Err(MissingHost)
       case Some(host) => Ok(NodeAddress(host, Field(pairs, "port").GetOr(Nil))))
    case Nil => Err(InvalidScheme(""))
    case Bool(_) => Err(InvalidScheme(""))
    case Array(_) => Err(InvalidScheme(""))
    case Int(_) => Err(NotStringOrHash)
    case Sym(_) => Err(NotStringOrHash)
    case Object => Err(NotStringOrHash)
  }

  /**
    Which entries are accepted: a String whose scheme is `redis`, or a Hash
    with a host under `:host` or `"host"`; a rejected String reports its
    scheme, a Hash without a host reports the missing key, and an accepted
    Hash keeps its host and its port (nil when absent).
  */
  lemma EntryAcceptance(entry: Value)
    ensures NormalizeEntry(entry).Ok? <==>
              (entry.Str? && Scheme(entry.s) == RedisScheme) ||
              (entry.Hash? && Field(entry.pairs, "host").Some?)
    ensures NormalizeEntry(entry) == Err(MissingHost) <==>
              entry.Hash? && Field(entry.pairs, "host").None?
    ensures entry.Str? && NormalizeEntry(entry).Err? ==>
              NormalizeEntry(entry) == Err(InvalidScheme(Scheme(entry.s)))
    ensures entry.Hash? && NormalizeEntry(entry).Ok? ==>
              NormalizeEntry(entry).value ==
                NodeAddress(Field(entry.pairs, "host").value, Field(entry.pairs, "port").GetOr(Nil))
  {
  }

  /**
    Every entry normalized in order; the first rejected entry's error is the
    result, and entries after it are not looked at.
  */
  function NormalizeAll(entries: seq<Value>): (r: Result<seq<NodeAddress>, ConfigError>)
    ensures r.Ok? <==> forall i :: 0 <= i < |entries| ==> NormalizeEntry(entries[i]).Ok?
    ensures r.Ok? ==>
              |r.value| == |entries| &&
              forall i :: 0 <= i < |entries| ==> NormalizeEntry(entries[i]) == Ok(r.value[i])
    decreases |entries|
  {
    if entries == [] then Ok([])
    else
      match NormalizeEntry(entries[0])
      case Err(e) => Err(e)
      case Ok(address) =>
        var tail := entries[1..];
        assert forall i :: 1 <= i < |entries| ==> entries[i] == tail[i - 1];
        match NormalizeAll(tail)
        case Err(e) => Err(e)
        case Ok(addresses) => Ok([address] + addresses)
  }

  /** A rejected list reports the error of its first rejected entry: every entry before it is accepted. */
  lemma {:induction false} FirstRejected(entries: seq<Value>)
    ensures NormalizeAll(entries).Err? ==>
              exists i :: 0 <= i < |entries| && NormalizeEntry(entries[i]) == Err(NormalizeAll(entries).error) &&
                          forall j :: 0 <= j < i ==> NormalizeEntry(entries[j]).Ok?
    decreases |entries|
  {
    if entries != [] && NormalizeEntry(entries[0]).Ok? {
      var tail := entries[1..];
      FirstRejected(tail);
      if NormalizeAll(tail).Err? {
        var i :| 0 <= i < |tail| && NormalizeEntry(tail[i]) == Err(NormalizeAll(tail).error) &&
                 forall j :: 0 <= j < i ==> NormalizeEntry(tail[j]).Ok?;
        assert forall k :: 1 <= k < |entries| ==> entries[k] == tail[k - 1];
      }
    }
  }

  /** The node list given to the cluster client, normalized to addresses or rejected. */
  function NormalizeNodeConfigs(config: Value): (r: Result<seq<NodeAddress>, ConfigError>)
    ensures r == Err(NotArray) <==> !config.Array?
    ensures config.Array? ==>
              (r.Ok? <==> forall i :: 0 <= i < |config.items| ==> NormalizeEntry(config.items[i]).Ok?)
    ensures r.Ok? ==>
              config.Array? && |r.value| == |config.items| &&
              forall i :: 0 <= i < |config.items| ==> NormalizeEntry(config.items[i]) == Ok(r.value[i])
    ensures r.Err? && config.Array? ==>
              exists i :: 0 <= i < |config.items| && NormalizeEntry(config.items[i]) == Err(r.error) &&
                          forall j :: 0 <= j < i ==> NormalizeEntry(config.items[j]).Ok?
  {
    match config
    case Array(entries) =>
      FirstRejected(entries);
      NormalizeAll(entries)
    case _ => Err(NotArray)
  }

  /** A host or port text that holds none of the URI delimiters `:`, `/`, `?`, `#`, `@`. */
  predicate PlainComponent(s: string) {
    forall i :: 0 <= i < |s| ==> s[i] !in {':', '/', '?', '#', '@'}
  }

  /** The URI form `redis://host:port` of an address. */
  function RedisUri(host: string, port: string): string {
    "redis://" + host + ":" + port
  }

  /** The scheme of every `redis://...` string is `redis`. */
  lemma RedisUriScheme(rest: string)
    ensures Scheme("redis://" + rest) == RedisScheme
    ensures |"redis://" + rest| >= 8
    ensures ("redis://" + rest)[6] == '/' && ("redis://" + rest)[7] == '/'
    ensures ("redis://" + rest)[8..] == rest
  {
    var uri := "redis://" + rest;
    assert uri[..5] == RedisScheme;
    assert SchemeEnd(uri, 5);
  }

  /** `host:port` made of plain components is its own authority and splits back into host and port. */
  lemma PlainAuthority(host: string, port: string)
    requires PlainComponent(host) && PlainComponent(port)
    ensures Authority(host + ":" + port) == host + ":" + port
    ensures AuthorityAddress(host + ":" + port) == NodeAddress(Str(host), Str(port))
  {
    var hostPort := host + ":" + port;
    forall j | 0 <= j < |hostPort|
      ensures hostPort[j] !in {'/', '?', '#', '@'}
      ensures j != |host| ==> hostPort[j] != ':'
    {
      if j < |host| {
        assert hostPort[j] == host[j];
      } else if j > |host| {
        assert hostPort[j] == port[j - 1 - |host|];
      }
    }
    assert hostPort[|host|] == ':';
    assert Text.Find(hostPort, {':'}, 0) == Some(|host|);
    assert hostPort[..|host|] == host;
    assert hostPort[|host| + 1..] == port;
  }

  /** Helper for `RedisUriParts`: the URI is `redis://` followed by `host:port`. */
  lemma RedisUriText(host: string, port: string)
    ensures RedisUri(host, port) == "redis://" + (host + ":" + port)
  {
  }

  /** Helper for `RedisUriParts`: a `redis://` string takes its address from the text after `//`. */
  lemma RedisUriAuthority(rest: string)
    ensures Scheme("redis://" + rest) == RedisScheme
    ensures RedisUriAddress("redis://" + rest) == AuthorityAddress(Authority(rest))
  {
    RedisUriScheme(rest);
  }

  /** The `redis://host:port` URI of plain components has scheme `redis` and names that host and port. */
  lemma RedisUriParts(host: string, port: string)
    requires PlainComponent(host) && PlainComponent(port)
    ensures Scheme(RedisUri(host, port)) == RedisScheme
    ensures RedisUriAddress(RedisUri(host, port)) == NodeAddress(Str(host), Str(port))
  {
    RedisUriText(host, port);
    RedisUriAuthority(host + ":" + port);
    PlainAuthority(host, port);
  }

  /** Writing an address as a `redis://` URI and normalizing it gives the address back. */
  lemma RedisUriRoundTrip(host: string, port: string)
    requires PlainComponent(host) && PlainComponent(port)
    ensures NormalizeEntry(Str(RedisUri(host, port))) == Ok(NodeAddress(Str(host), Str(port)))
  {
    RedisUriParts(host, port);
  }

  /** A hash entry with a host under the Symbol key `:host` is accepted with that host and port. */
  lemma SymbolHostAccepted(host: Value, port: Value)
    ensures NormalizeEntry(Hash([(Sym("host"), host), (Sym("port"), port)])) == Ok(NodeAddress(host, port))
  {
    var pairs := [(Sym("host"), host), (Sym("port"), port)];
    assert Get(pairs, Sym("host")) == Some(host) by {
      assert pairs[..1] == [(Sym("host"), host)];
      assert Sym("port") != Sym("host");
    }
    assert Get(pairs, Sym("port")) == Some(port);
  }

  /** A hash entry with a host under the String key `"host"` is accepted with that host and port. */
  lemma StringHostAccepted(host: Value, port: Value)
    ensures NormalizeEntry(Hash([(Str("host"), host), (Sym("port"), port)])) == Ok(NodeAddress(host, port))
  {
    var pairs := [(Str("host"), host), (Sym("port"), port)];
    assert Get(pairs, Sym("host")) == None;
    assert Get(pairs, Str("host")) == Some(host) by {
      assert pairs[..1] == [(Str("host"), host)];
      assert Sym("port") != Str("host");
    }
    assert Get(pairs, Sym("port")) == Some(port);
  }

  /** A hash holding `:host` and then `"host"` is read through the Symbol key, although the String pair comes later. */
  lemma SymbolHostPreferred(a: Value, b: Value)
    ensures NormalizeEntry(Hash([(Sym("host"), a), (Str("host"), b)])) == Ok(NodeAddress(a, Nil))
  {
    var pairs := [(Sym("host"), a), (Str("host"), b)];
    assert Get(pairs, Sym("host")) == Some(a) by {
      assert pairs[..1] == [(Sym("host"), a)];
    }
    assert Get(pairs, Sym("port")) == None && Get(pairs, Str("port")) == None;
  }

  /** A hash holding `"host"` and then `:host` is read through the Symbol key as well. */
  lemma SymbolHostPreferredLast(a: Value, b: Value)
    ensures NormalizeEntry(Hash([(Str("host"), b), (Sym("host"), a)])) == Ok(NodeAddress(a, Nil))
  {
    var pairs := [(Str("host"), b), (Sym("host"), a)];
    assert Get(pairs, Sym("host")) == Some(a);
    assert Get(pairs, Sym("port")) == None && Get(pairs, Str("port")) == None;
  }

  /** The scheme is compared case-sensitively: an upper-case `REDIS` URI is rejected with its scheme. */
  lemma UpperCaseSchemeRejected()
    ensures NormalizeEntry(Str("REDIS://h:1")) == Err(InvalidScheme("REDIS"))
  {
    var uri := "REDIS://h:1";
    assert SchemeEnd(uri, 5);
    assert uri[..5] == "REDIS";
  }

  /** A one-entry node list is accepted or rejected exactly as its entry is. */
  lemma SingleEntryConfig(entry: Value)
    ensures NormalizeEntry(entry).Err? ==>
              NormalizeNodeConfigs(Array([entry])) == Err(NormalizeEntry(entry).error)
    ensures NormalizeEntry(entry).Ok? ==>
              NormalizeNodeConfigs(Array([entry])) == Ok([NormalizeEntry(entry).value])
  {
    assert [entry][1..] == [];
    assert NormalizeAll([]) == Ok([]);
    if NormalizeEntry(entry).Ok? {
      assert [NormalizeEntry(entry).value] + [] == [NormalizeEntry(entry).value];
    }
  }

  /** The scheme of `http://127.0.0.1:80` is `http`. */
  lemma HttpScheme()
    ensures Scheme("http://127.0.0.1:80") == "http"
  {
    var uri := "http://127.0.0.1:80";
    assert IsSchemeChar(uri[1]) && IsSchemeChar(uri[2]) && IsSchemeChar(uri[3]);
    assert SchemeEnd(uri, 4);
    assert uri[..4] == "http";
  }

  /** `test_client_does_not_accept_http_scheme_url`: an `http` URI is rejected with its scheme. */
  lemma HttpUriRejected()
    ensures NormalizeNodeConfigs(Array([Str("http://127.0.0.1:80")])) == Err(InvalidScheme("http"))
    ensures ClassOf(InvalidScheme("http")) == ArgumentError
  {
    HttpScheme();
    SingleEntryConfig(Str("http://127.0.0.1:80"));
  }

  /**
    The other rejections of the `test_client_does_not_accept_*` tests: a
    blank string, `true`, `nil`, `[]`, `{}`, a plain object, and a list that
    is not an Array, each with its error and exception class.
  */
  lemma RejectedConfigVectors()
    ensures NormalizeNodeConfigs(Array([Str("")])) == Err(InvalidScheme(""))
    ensures NormalizeNodeConfigs(Array([Bool(true)])) == Err(InvalidScheme(""))
    ensures NormalizeNodeConfigs(Array([Nil])) == Err(InvalidScheme(""))
    ensures NormalizeNodeConfigs(Array([Array([])])) == Err(InvalidScheme(""))
    ensures NormalizeNodeConfigs(Array([Hash([])])) == Err(MissingHost)
    ensures NormalizeNodeConfigs(Array([Object])) == Err(NotStringOrHash)
    ensures NormalizeNodeConfigs(Sym("not_array")) == Err(NotArray)
    ensures ClassOf(InvalidScheme("")) == ArgumentError
    ensures ClassOf(MissingHost) == KeyError
    ensures ClassOf(NotStringOrHash) == ArgumentError && ClassOf(NotArray) == ArgumentError
  {
    SingleEntryConfig(Str(""));
    SingleEntryConfig(Bool(true));
    SingleEntryConfig(Nil);
    SingleEntryConfig(Array([]));
    SingleEntryConfig(Hash([]));
    SingleEntryConfig(Object);
  }

  /** The loopback host text holds no URI delimiter. */
  lemma LoopbackIsPlain()
    ensures PlainComponent("127.0.0.1")
  {
    var host := "127.0.0.1";
    forall i | 0 <= i < |host| ensures host[i] !in {':', '/', '?', '#', '@'} {
      assert host[i] == '.' || '0' <= host[i] <= '9';
    }
  }

  /** `redis://127.0.0.1:` followed by a port is the URI form of that address. */
  lemma LoopbackUriText(port: string)
    ensures RedisUri("127.0.0.1", port) == "redis://127.0.0.1:" + port
  {
    assert "redis://" + "127.0.0.1" + ":" == "redis://127.0.0.1:";
  }

  /** `redis://127.0.0.1:<port>` names host `127.0.0.1` and the given port. */
  lemma LocalNodeUri(port: string)
    requires PlainComponent(port)
    ensures NormalizeEntry(Str("redis://127.0.0.1:" + port)) == Ok(NodeAddress(Str("127.0.0.1"), Str(port)))
  {
    LoopbackIsPlain();
    RedisUriRoundTrip("127.0.0.1", port);
    LoopbackUriText(port);
  }

  /** The URI entries of `test_client_accepts_valid_node_configs`. */
  lemma LocalNodeUriVector(port: string)
    requires port in {"7000", "7001", "7004", "7005"}
    ensures NormalizeEntry(Str("redis://127.0.0.1:" + port)) == Ok(NodeAddress(Str("127.0.0.1"), Str(port)))
  {
    assert PlainComponent(port) by {
      forall i | 0 <= i < |port| ensures port[i] !in {':', '/', '?', '#', '@'} {
      }
    }
    LocalNodeUri(port);
  }

  /** A list whose every entry normalizes to the matching address normalizes to the list of addresses. */
  lemma {:induction false} AllAccepted(entries: seq<Value>, addresses: seq<NodeAddress>)
    requires |entries| == |addresses|
    requires forall i :: 0 <= i < |entries| ==> NormalizeEntry(entries[i]) == Ok(addresses[i])
    ensures NormalizeAll(entries) == Ok(addresses)
    decreases |entries|
  {
    if entries != [] {
      var tail, rest := entries[1..], addresses[1..];
      assert forall i :: 0 <= i < |tail| ==> tail[i] == entries[i + 1] && rest[i] == addresses[i + 1];
      AllAccepted(tail, rest);
      assert addresses == [addresses[0]] + rest;
    }
  }
}

=== FILE: results.dfy ===
/** Option and Result values used for the model's absent values and error paths. */
module Results {

  /** A value that may be absent (Ruby's `nil` where a lookup finds nothing). */
  datatype Option<+T> = None | Some(value: T) {
    function GetOr(default: T): T {
      match this
      case Some(v) => v
      case None => default
    }
  }

  /** Either a computed value or the error that a Ruby method would raise. */
  datatype Result<+T, +E> = Ok(value: T) | Err(error: E)
}

=== FILE: router.dfy ===
/**
  The routing decision for one command: extract its keys, check that they
  all hash to one slot, and name the slot whose owner receives the command
  (or any node when the command has no key). No network is involved: a
  cross-slot command is rejected before anything is sent.
*/
module Router {
  import opened Results
  import opened KeySlotConverter
  import opened KeyExtractor

  /** Where a command is sent. */
  datatype Target =
    | AnyNode                // keyless: the default connection
    | SlotOwner(slot: Slot)  // the master that owns this slot

  /** The one routing failure: a multi-key command whose keys span several slots. */
  datatype RoutingError = CrossSlot

  /** The error text of a rejection, led by the `CROSSSLOT` error code and a space. */
  function ErrorMessage(e: RoutingError): (m: string)
    ensures |m| > 10 && m[..10] == "CROSSSLOT "
  {
    var code, text := "CROSSSLOT ", "Keys in request don't hash to the same slot";
    assert (code + text)[..10] == code;
    code + text
  }

  /** True when every key lies in `slot`, checked key by key. */
  function AllInSlot(crc16: string -> bv16, keys: seq<string>, slot: Slot): (r: bool)
    ensures r <==> forall i :: 0 <= i < |keys| ==> KeySlot(crc16, keys[i]) == slot
    decreases |keys|
  {
    keys == [] || (KeySlot(crc16, keys[0]) == slot && AllInSlot(crc16, keys[1..], slot))
  }

  /**
    The slot shared by all keys: none for an empty key list, the common slot
    when every key has it, and a cross-slot error when two keys differ.
  */
  function CommonSlot(crc16: string -> bv16, keys: seq<string>): (r: Result<Option<Slot>, RoutingError>)
    ensures r == Ok(None) <==> keys == []
    ensures r.Ok? && r.value.Some? ==>
              forall i :: 0 <= i < |keys| ==> KeySlot(crc16, keys[i]) == r.value.value
    ensures r.Err? <==>
              exists i, j :: 0 <= i < |keys| && 0 <= j < |keys| &&
                             KeySlot(crc16, keys[i]) != KeySlot(crc16, keys[j])
  {
    if keys == [] then Ok(None)
    else if AllInSlot(crc16, keys, KeySlot(crc16, keys[0])) then Ok(Some(KeySlot(crc16, keys[0])))
    else Err(CrossSlot)
  }

  /** The routing decision for `command` with arguments `args`. */
  function Route(crc16: string -> bv16, command: string, args: seq<Option<string>>): (r: Result<Target, RoutingError>)
    ensures r == Ok(AnyNode) <==> KeysOf(command, args) == []
    ensures r.Ok? && r.value.SlotOwner? ==>
              forall k :: k in KeysOf(command, args) ==> KeySlot(crc16, k) == r.value.slot
    ensures r.Err? <==>
              exists k1, k2 :: k1 in KeysOf(command, args) && k2 in KeysOf(command, args) &&
                               KeySlot(crc16, k1) != KeySlot(crc16, k2)
  {
    var keys := KeysOf(command, args);
    match CommonSlot(crc16, keys)
    case Err(e) => Err(e)
    case Ok(None) => Ok(AnyNode)
    case Ok(Some(s)) => Ok(SlotOwner(s))
  }

  /**
    A single-key command goes to the owner of the slot of its extracted key,
    and a command that extracts the empty string goes to any node.
  */
  lemma SingleKeyRoute(crc16: string -> bv16, command: string, args: seq<Option<string>>)
    requires PolicyOf(command) == FirstArg
    ensures ExtractKey(command, args) == [] ==> Route(crc16, command, args) == Ok(AnyNode)
    ensures ExtractKey(command, args) != [] ==>
              Route(crc16, command, args) ==
              Ok(SlotOwner(SlotOfHash(crc16(ExtractKey(command, args)) as nat)))
  {
    var keys := KeysOf(command, args);
    if keys != [] {
      assert keys == [FirstKey(args)];
      assert keys[0] in keys;
    }
  }

  /**
    A multi-key command with at least one argument is never sent to any
    node: unless it is rejected as cross-slot, it goes to the owner of the
    slot of its extracted key. An empty or nil first key extracts `''` and
    is hashed as `''` like any other key.
  */
  lemma MultiKeyRoute(crc16: string -> bv16, command: string, args: seq<Option<string>>)
    requires PolicyOf(command) == AllArgs || PolicyOf(command) == AlternateArgs
    ensures args == [] <==> Route(crc16, command, args) == Ok(AnyNode)
    ensures args != [] && Route(crc16, command, args).Ok? ==>
              Route(crc16, command, args) ==
              Ok(SlotOwner(SlotOfHash(crc16(ExtractKey(command, args)) as nat)))
  {
    var keys := KeysOf(command, args);
    if args != [] {
      assert keys[0] == FirstKey(args);
      assert keys[0] in keys;
      if FirstKey(args) == [] {
        assert HashTag(FirstKey(args)) == [];
      }
    }
  }

  /** Administrative commands go to any node. */
  lemma AdminRoute(crc16: string -> bv16, command: string, args: seq<Option<string>>)
    requires Lower(command) in AdminCommands
    ensures Route(crc16, command, args) == Ok(AnyNode)
  {
    AdminCommandsAreKeyless(command, args);
  }

  /**
    Keys that all carry the same hash tag are never rejected as cross-slot:
    the command goes to the owner of the tag's slot.
  */
  lemma SharedTagRoute(crc16: string -> bv16, command: string, args: seq<Option<string>>, tag: string)
    requires KeysOf(command, args) != []
    requires forall k :: k in KeysOf(command, args) ==> HashTag(k) == tag
    ensures Route(crc16, command, args) == Ok(SlotOwner(KeySlot(crc16, tag)))
  {
    var keys := KeysOf(command, args);
    assert keys[0] in keys;
    HashTagIdempotent(keys[0]);
    forall k | k in keys
      ensures KeySlot(crc16, k) == KeySlot(crc16, tag)
    {
    }
  }

  /** `mset` alternates keys and values; `mget` takes only keys. */
  lemma BulkCommandPolicies()
    ensures PolicyOf("mset") == AlternateArgs
    ensures PolicyOf("mget") == AllArgs
  {
    assert Lower("mset") == "mset";
    assert Lower("mget") == "mget";
  }

  /** The keys of a three-pair `mset` are its arguments 0, 2 and 4. */
  lemma MsetKeys(k1: string, v1: string, k2: string, v2: string, k3: string, v3: string)
    ensures KeysOf("mset", [Some(k1), Some(v1), Some(k2), Some(v2), Some(k3), Some(v3)]) == [k1, k2, k3]
  {
    BulkCommandPolicies();
  }

  /** The keys of a three-key `mget` are its arguments. */
  lemma MgetKeys(k1: string, k2: string, k3: string)
    ensures KeysOf("mget", [Some(k1), Some(k2), Some(k3)]) == [k1, k2, k3]
  {
    BulkCommandPolicies();
  }

  /** A three-key list is cross-slot exactly when its three slots are not all equal. */
  lemma ThreeKeysCrossSlot(crc16: string -> bv16, k1: string, k2: string, k3: string)
    ensures CommonSlot(crc16, [k1, k2, k3]).Err? <==>
              !(KeySlot(crc16, k1) == KeySlot(crc16, k2) == KeySlot(crc16, k3))
  {
    var keys := [k1, k2, k3];
    if !(KeySlot(crc16, k1) == KeySlot(crc16, k2) == KeySlot(crc16, k3)) {
      if KeySlot(crc16, k1) != KeySlot(crc16, k2) {
        assert KeySlot(crc16, keys[0]) != KeySlot(crc16, keys[1]);
      } else {
        assert KeySlot(crc16, keys[1]) != KeySlot(crc16, keys[2]);
      }
    }
  }

  /** `mset` over keys `{tag}s1`, `{tag}s2`, `{tag}s3` goes to the owner of the tag's slot. */
  lemma TaggedMset(crc16: string -> bv16, tag: string, s1: string, s2: string, s3: string,
                   v1: string, v2: string, v3: string)
    requires '}' !in tag && tag != []
    ensures Route(crc16, "mset", [Some("{" + tag + "}" + s1), Some(v1), Some("{" + tag + "}" + s2),
                                  Some(v2), Some("{" + tag + "}" + s3), Some(v3)])
            == Ok(SlotOwner(KeySlot(crc16, tag)))
  {
    var k1, k2, k3 := "{" + tag + "}" + s1, "{" + tag + "}" + s2, "{" + tag + "}" + s3;
    LeadingTagKey(tag, s1);
    LeadingTagKey(tag, s2);
    LeadingTagKey(tag, s3);
    MsetKeys(k1, v1, k2, v2, k3, v3);
    SharedTagRoute(crc16, "mset", [Some(k1), Some(v1), Some(k2), Some(v2), Some(k3), Some(v3)], tag);
  }

  /** `mget` over keys `{tag}s1`, `{tag}s2`, `{tag}s3` goes to the owner of the tag's slot. */
  lemma TaggedMget(crc16: string -> bv16, tag: string, s1: string, s2: string, s3: string)
    requires '}' !in tag && tag != []
    ensures Route(crc16, "mget", [Some("{" + tag + "}" + s1), Some("{" + tag + "}" + s2),
                                  Some("{" + tag + "}" + s3)])
            == Ok(SlotOwner(KeySlot(crc16, tag)))
  {
    var k1, k2, k3 := "{" + tag + "}" + s1, "{" + tag + "}" + s2, "{" + tag + "}" + s3;
    LeadingTagKey(tag, s1);
    LeadingTagKey(tag, s2);
    LeadingTagKey(tag, s3);
    MgetKeys(k1, k2, k3);
    SharedTagRoute(crc16, "mget", [Some(k1), Some(k2), Some(k3)], tag);
  }

  /** The three tagged keys of the multi-key test, spelled as brace, tag, brace, suffix. */
  lemma PresidentsKeys()
    ensures "{Presidents.of.USA}:1" == "{" + "Presidents.of.USA" + "}" + ":1"
    ensures "{Presidents.of.USA}:2" == "{" + "Presidents.of.USA" + "}" + ":2"
    ensures "{Presidents.of.USA}:3" == "{" + "Presidents.of.USA" + "}" + ":3"
    ensures '}' !in "Presidents.of.USA"
  {
    assert "{" + "Presidents.of.USA" == "{Presidents.of.USA";
    assert "{Presidents.of.USA" + "}" == "{Presidents.of.USA}";
  }

  /**
    `test_hash_tags_work_on_multi_key_commands`, tagged half: `mset` and
    `mget` over keys sharing the tag `Presidents.of.USA` go to the owner of
    that tag's slot, for every CRC.
  */
  lemma TaggedMultiKeyVectors(crc16: string -> bv16)
    ensures Route(crc16, "mset", [Some("{Presidents.of.USA}:1"), Some("George Washington"),
                                  Some("{Presidents.of.USA}:2"), Some("John Adams"),
                                  Some("{Presidents.of.USA}:3"), Some("Thomas Jefferson")])
            == Ok(SlotOwner(KeySlot(crc16, "Presidents.of.USA")))
    ensures Route(crc16, "mget", [Some("{Presidents.of.USA}:1"), Some("{Presidents.of.USA}:2"),
                                  Some("{Presidents.of.USA}:3")])
            == Ok(SlotOwner(KeySlot(crc16, "Presidents.of.USA")))
  {
    PresidentsKeys();
    TaggedMset(crc16, "Presidents.of.USA", ":1", ":2", ":3",
               "George Washington", "John Adams", "Thomas Jefferson");
    TaggedMget(crc16, "Presidents.of.USA", ":1", ":2", ":3");
  }

  /**
    `test_hash_tags_work_on_multi_key_commands`, untagged half: `mset` and
    `mget` over `Presidents.of.USA:1..3` are rejected as cross-slot exactly
    when the three keys do not share a slot.
  */
  lemma UntaggedMultiKeyVectors(crc16: string -> bv16)
    ensures Route(crc16, "mset", [Some("Presidents.of.USA:1"), Some("George Washington"),
                                  Some("Presidents.of.USA:2"), Some("John Adams"),
                                  Some("Presidents.of.USA:3"), Some("Thomas Jefferson")])
            == Err(CrossSlot)
            <==> !(KeySlot(crc16, "Presidents.of.USA:1") == KeySlot(crc16, "Presidents.of.USA:2")
                   == KeySlot(crc16, "Presidents.of.USA:3"))
    ensures Route(crc16, "mget", [Some("Presidents.of.USA:1"), Some("Presidents.of.USA:2"),
                                  Some("Presidents.of.USA:3")])
            == Err(CrossSlot)
            <==> !(KeySlot(crc16, "Presidents.of.USA:1") == KeySlot(crc16, "Presidents.of.USA:2")
                   == KeySlot(crc16, "Presidents.of.USA:3"))
  {
    var k1, k2, k3 := "Presidents.of.USA:1", "Presidents.of.USA:2", "Presidents.of.USA:3";
    MsetKeys(k1, "George Washington", k2, "John Adams", k3, "Thomas Jefferson");
    MgetKeys(k1, k2, k3);
    ThreeKeysCrossSlot(crc16, k1, k2, k3);
  }
}

=== FILE: text.dfy ===
/** Character search over strings, shared by the hash-tag scan and the URI reader. */
module Text {
  import opened Results

  /** The first index at or after `from` whose character belongs to `cs`, if there is one. */
  function Find(s: string, cs: set<char>, from: nat): (r: Option<nat>)
    requires from <= |s|
    ensures r.Some? ==> from <= r.value < |s| && s[r.value] in cs
    ensures r.Some? ==> forall j :: from <= j < r.value ==> s[j] !in cs
    ensures r.None? ==> forall j :: from <= j < |s| ==> s[j] !in cs
    decreases |s| - from
  {
    if from == |s| then None
    else if s[from] in cs then Some(from)
    else Find(s, cs, from + 1)
  }
}
